=== FILE: README.md ===
# Currency converter: rate cache and provider logic in Dafny

This project models the two components of the currency converter that
hold its logic:

- `CacheManager` keeps exchange rates keyed by an ordered currency pair.
  Each entry is valid for one hour after it was written. A read falls
  back to the reciprocal of the reverse pair. An expired forward entry is
  deleted when it is read. A sweep removes every expired entry. The store
  is written back to a JSON file after every change. This is the `Cache`
  module, with a class `CacheManager`.
- `CurrencyConverter` decides between two rate providers. It rejects a
  non-positive amount and answers equal currencies at rate 1. It asks the
  primary provider (exchangerate-api.com) first and the fallback provider
  (fixer.io) second. The fallback's rates are quoted against EUR, so a
  cross rate is derived through EUR. The supported-currency list is
  memoised for one hour. The historical series is assembled day by day,
  best effort. This is the `Converter` module, with a class
  `CurrencyConverter` for the currency-list memo.

Modelling choices:

- The clock is an injected `now: int`, in microseconds, the resolution of
  Python's `datetime`. One hour is 3 600 000 000.
- A stored ISO-8601 timestamp is `Option<int>`: the instant it denotes,
  or `None`. An entry's "timestamp" is `None` when it does not parse, and
  also when it carries a UTC offset: such a string parses, but subtracting
  it from the naive `datetime.now()` raises TypeError, which
  `_is_cache_valid` reports as not valid. The metadata's "last_update" is
  only parsed and formatted, so it is `None` only when it does not parse,
  and an offset-bearing one keeps its instant.
- Every HTTP request is replaced by its outcome, an `Outcome` input:
  timeout, connection failure, HTTP error with status, other error, or a
  decoded payload.
- Rates and amounts are `real`.
- `convert` returns the providers it queried beside its result, so
  "without consulting a provider" can be stated.
- Writing the cache file is the ghost counter `saves`. Requesting the
  currency list is the ghost counter `currencyFetches`.
- The cache is keyed by the pair `(from, to)`. The source uses the string
  `"{from}_{to}"`, and two different pairs share that string once a code
  contains `_`. The two keyings identify the same entries whenever the
  source currency has no `_`, as with ISO 4217 codes.
- `sorted()` and `str()` of an integer are modelled in the `Text` module.
  Strings are ordered code point by code point, as in Python.

Three behaviours of the code worth noting:

- The cache does not enforce a positive rate.
- The amount error reads "Amount must be greater than zero".
- The code only checks a loaded store for a "rates" member. A store
  without "metadata" then makes `cache_rate` raise (see Findings). The
  as-written load is `LoadCacheAsWritten`, and `CacheRateSucceeds` says
  when `cache_rate` completes on its result. `CacheManager` itself is
  built on the corrected load, `LoadCache`, so its `CacheRate` also
  succeeds on such a store.

## Model

| member | source | states |
|---|---|---|
| `Cache.SourceKeyCollides` | CurrencyConverter/cache_manager.py:35-37 | the string key "{from}_{to}" is the same for ("A_B", "C") and ("A", "B_C"), which the pair key keeps apart |
| `Cache.SourceKeyAgreesWithoutUnderscore` | CurrencyConverter/cache_manager.py:35-37 | when neither source currency contains '_', two string keys are equal exactly when the pair keys are |
| `Cache.IsCacheValid` | CurrencyConverter/cache_manager.py:98-104 | a stamp that is None (unparseable, or carrying a UTC offset so that line 102 raises) is never valid; any other is valid exactly before it is one hour old |
| `Cache.ValidityWindow` | CurrencyConverter/cache_manager.py:98-104 | an entry is valid strictly under one hour: valid at 0 and 59 minutes, invalid at exactly 60 and at 61 minutes, never valid with a None stamp |
| `Cache.Unexpired` | CurrencyConverter/cache_manager.py:138-143 | keeps exactly the keys whose entries are valid at `now`, with their entries unchanged |
| `Cache.UnexpiredSize` | CurrencyConverter/cache_manager.py:142-148 | the store's size is the number of valid entries plus the number of expired keys |
| `Cache.LoadCacheAsWritten` | CurrencyConverter/cache_manager.py:14-25 | any object holding "rates" is kept as found, metadata possibly absent; a missing, unreadable or non-object file gives the empty store; loading never fails |
| `Cache.CacheRateSucceeds` | CurrencyConverter/cache_manager.py:59 | by definition, `cache_rate` completes on a loaded store exactly when it holds a "metadata" object, which line 59 assigns into |
| `Cache.LoadAcceptsStoreThatBreaksCacheRate` | CurrencyConverter/cache_manager.py:21-22 | the file `{"rates": {}}` passes the load check yet leaves no metadata, so the next `cache_rate` would raise |
| `Cache.LoadCache` | CurrencyConverter/cache_manager.py:14-25 | the corrected load: same rates as written; metadata as found, or empty when absent; empty store on every rejected input |
| `Cache.CacheManager.constructor` | CurrencyConverter/cache_manager.py:9-12 | the new manager holds exactly what the corrected load returns and has saved nothing |
| `Cache.CacheManager.CacheRate` | CurrencyConverter/cache_manager.py:39-62 | only the (from, to) entry changes, to the rate stamped `now`; the size grows by one exactly when the key was new; metadata records `now` and the new size; one save |
| `Cache.CacheManager.GetCachedRate` | CurrencyConverter/cache_manager.py:64-96 | a valid forward entry is returned with the store unchanged; an expired forward entry is deleted alone, saved, and nothing is returned, the reverse not consulted; without a forward entry a valid reverse entry gives 1/rate, nothing is deleted or saved; metadata unchanged |
| `Cache.CacheManager.GetCacheInfo` | CurrencyConverter/cache_manager.py:106-127 | total is the entry count; valid is the number of entries valid at `now` and is at most the total; last update shown as Never, Unknown or the instant |
| `Cache.CacheManager.ClearCache` | CurrencyConverter/cache_manager.py:129-132 | empty rates and empty metadata, one save |
| `Cache.CacheManager.CollectExpiredKeys` | CurrencyConverter/cache_manager.py:136-140 | lists each key whose entry is no longer valid, each exactly once |
| `Cache.CacheManager.ClearExpiredCache` | CurrencyConverter/cache_manager.py:134-148 | exactly the valid entries remain; returns old size minus new size; saves only when that is positive; metadata left as it was |
| `Cache.CacheThenRead` | CurrencyConverter/cache_manager.py:48-91 | a rate cached at t is read back exactly at any t' with t' - t under an hour, and the read changes nothing |
| `Cache.CacheThenReadReverse` | CurrencyConverter/cache_manager.py:77-85 | after caching (A, B) at r, reading (B, A) within the hour gives 1/r when no (B, A) entry exists, and the (A, B) entry stays as written |
| `Cache.CacheThenReadExpired` | CurrencyConverter/cache_manager.py:87-96 | a rate read an hour or more after caching is not returned, and only its entry is removed |
| `Cache.SweepTwice` | CurrencyConverter/cache_manager.py:134-148 | a second sweep at the same instant removes nothing and does not save |
| `Text.StrLeTotal` | CurrencyConverter/currency_converter.py:42 | any two strings are ordered one way or the other, as `sorted()` needs |
| `Text.Sort` | CurrencyConverter/currency_converter.py:42 | `sorted()`: the result is in ascending order and a permutation of its input |
| `Text.NatToString` | CurrencyConverter/currency_converter.py:131 | `str()` of a status code: one or more decimal digits, at least two from 10 on |
| `Text.NatToStringValue` | CurrencyConverter/currency_converter.py:131 | the digits of `str(n)` read as a decimal number give back `n` |
| `Text.NatToStringInjective` | CurrencyConverter/currency_converter.py:128-132 | distinct status codes give distinct texts |
| `Converter.ConversionError.Message` | CurrencyConverter/currency_converter.py:68-192 | the ten failure texts of lines 68, 102, 121, 126, 131, 136, 157, 165, 169, 174 and 192; the currency, HTTP status or exception text a message carries can be read back from it |
| `Converter.ConvertWithExchangeRateApi` | CurrencyConverter/currency_converter.py:90-137 | succeeds exactly when the response has "rates" quoting `to`, at that rate, with amount × rate, the date or "Unknown", and source "ExchangeRate-API"; a missing pair, a timeout, a connection failure, an HTTP status and any other error each give their own error |
| `Converter.PrimaryMessagesDistinct` | CurrencyConverter/currency_converter.py:118-137 | the primary provider's failures never share a message across kinds, across HTTP statuses, or across unexpected-error texts |
| `Converter.ConvertWithFallback` | CurrencyConverter/currency_converter.py:139-193 | a failed request gives the catch-all error; "success" not true gives "Fallback API also failed"; otherwise success exactly when both EUR quotes exist and the divisor is non-zero, at rate quote(to)/quote(from) with EUR quoted at 1 |
| `Converter.FallbackRatesReciprocal` | CurrencyConverter/currency_converter.py:162-175 | two rates derived from one response for (A, B) and (B, A) multiply to 1 |
| `Converter.FallbackRatesChain` | CurrencyConverter/currency_converter.py:162-175 | rates derived from one response chain: A→B times B→C is A→C, and A→C then succeeds |
| `Converter.Convert` | CurrencyConverter/currency_converter.py:53-88 | amount ≤ 0 fails with no provider queried; equal currencies give rate 1, amount unchanged, source "Direct (same currency)", no provider queried; a primary success is returned after the primary alone; otherwise the fallback's result is returned unchanged after both |
| `Converter.ConvertedAmountMatchesRate` | CurrencyConverter/currency_converter.py:65-88 | every success is for a positive amount and the requested pair, converts at its reported rate, and names the last provider queried |
| `Converter.UnconsultedProvidersIgnored` | CurrencyConverter/currency_converter.py:65-88 | changing the outcome of a provider that was not queried changes nothing |
| `Converter.ConvertExample` | CurrencyConverter/currency_converter.py:99-116 | 100 USD with EUR quoted at 0.92 converts to 92.0 from "ExchangeRate-API" |
| `Converter.KeysOf` | CurrencyConverter/currency_converter.py:41 | the listed keys are the quoted codes, each once |
| `Converter.CurrencyConverter.constructor` | CurrencyConverter/currency_converter.py:24-25 | no memoised list and no fetch time, and the class invariant holds: a fetch time only comes with a list |
| `Converter.CurrencyConverter.NeedsCurrencyRefresh` | CurrencyConverter/currency_converter.py:30-32 | no refresh only when a list and a stamp are both held and the stamp is at most an hour old; a stamp more than an hour old always refreshes |
| `Converter.CurrencyConverter.GetSupportedCurrencies` | CurrencyConverter/currency_converter.py:27-51 | no request while the memo is set, stamped and at most an hour old; otherwise one request: with "rates", a sorted permutation of USD plus the quoted codes, stamped with the clock read after the request; else the default list, stamp untouched; the class invariant holds afterwards |
| `Converter.FailedRefreshIsRetried` | CurrencyConverter/currency_converter.py:30-49 | after a refresh that falls back to the default list, a later call requests again |
| `Converter.DayRate` | CurrencyConverter/currency_converter.py:218-224 | a day gives a rate exactly when its request succeeded with status 200 and a JSON body whose "rates" quote `to`, and the rate is that quote |
| `Converter.GetHistoricalRates` | CurrencyConverter/currency_converter.py:195-238 | days that fail or do not quote `to` are skipped; the result maps exactly the dates some day resolved, each to the last resolving day's rate; success exactly when at least one day resolved, else "Historical data not available" |

## Findings

| source | as written | input that shows it | evidently intended | confidence | as-written member | corrected member |
|---|---|---|---|---|---|---|
| CurrencyConverter/cache_manager.py:21-22 | the load accepts any object containing "rates", and `cache_rate` then assigns into `["metadata"]` (line 59) | a cache file holding `{"rates": {}}`: it loads, and the next `cache_rate` raises KeyError | a store without "metadata" reads as empty metadata, as `get_cache_info` (line 115) already assumes | medium; not executed | `Cache.LoadCacheAsWritten`, `Cache.LoadAcceptsStoreThatBreaksCacheRate` | `Cache.LoadCache` |

## Left out

- The Streamlit page (app.py) is not part of this model. That covers its widgets and session state. It also covers the write-through after a successful conversion (app.py:135) and the labelled cached fallback on failure (app.py:141-145).
- HTTP requests, URLs and timeouts are replaced by `Outcome` inputs. The fallback's API key only changes the URL, so it is not modelled. With or without a key, the code derives the rate through EUR, and so does the model.
- File I/O is not modelled: `open`, `json.dump` and `json.load`. A save is the ghost counter `saves`. A failed save only prints a warning and changes nothing else.
- The `print` warnings are left out.
- `datetime.now`, ISO-8601 parsing and `strftime` are left out. The caller supplies `now`. Historical dates are supplied with each day's response.
- The `last_update` display string is modelled as Never, Unknown or the instant. A stored `last_update` that is literally the string "Never" is shown as "Never" by the source. The model reads that string as a stamp that does not parse and shows Unknown.
- The "count" text `"{valid}/{total}"` is given as its two numbers.
- Floating-point rounding of `amount * rate`, `1.0 / rate` and `rates[to] / rates[from]` is not modelled. The arithmetic is exact on `real`.
- Malformed loaded stores are not modelled beyond the shape check and timestamps that cannot be compared with the clock. This covers entries that are not objects or that lack "timestamp" or "rate", a non-numeric rate, and a "rates" value that is not an object. Some of these raise later, outside any handler: an entry without "rate" raises only when a valid read reaches it. A null or boolean rate is returned as found.
- Provider bodies that are not JSON objects are not modelled. A non-boolean "success" value is not modelled either.
- Cache.CacheManager.GetCachedRate: requires a non-zero rate on the reverse path. The source computes `1.0 / rate` there without a guard, so a zero rate raises ZeroDivisionError.
- Converter.GetHistoricalRates: the outer handler "Error fetching historical data" is not modelled. Outside the inner `try`, only the date computation at CurrencyConverter/currency_converter.py:212 can raise. It raises OverflowError once `days` reaches back past the year 1, about 739 000 days. The source then returns "Error fetching historical data: date value out of range", even when earlier days resolved; the model returns the history. The page asks for 7 days.
- Converter.GetHistoricalRates: takes one supplied query per day of `range(days)`, hence its precondition on the query count.
- Converter.FailedRefreshIsRetried: assumes a clock that does not go backwards. It also assumes the class invariant `Valid()`, which the constructor establishes and `GetSupportedCurrencies` keeps.
- Cache.CacheManager.GetCacheInfo: reads one `now` for all entries. The source reads the clock again for each entry (CurrencyConverter/cache_manager.py:102, called at line 112), so an entry can expire partway through the count.
- Cache.CacheManager.ClearExpiredCache: reads one `now` for all entries. The source reads the clock again for each entry (CurrencyConverter/cache_manager.py:102, called at line 139).
- Converter.CurrencyConverter.GetSupportedCurrencies: the source stores the default list object itself, so the memo and the defaults share one list. The model copies values and does not capture that sharing.

=== FILE: cache_manager.dfy ===
/** Model of CacheManager (CurrencyConverter/cache_manager.py): a store of
    exchange rates keyed by ordered currency pair, each entry valid for one
    hour after it was written, read back in either direction, swept of
    expired entries on demand, and written back to a JSON file after every
    change.

    The clock is an injected reading `now`, in microseconds (the resolution
    of Python's datetime). A timestamp stored as an ISO-8601 string is
    modelled by the instant it denotes, or None when `_is_cache_valid`
    cannot compare it with the clock. Writing the file is modelled by the
    ghost counter `saves`. */
module Cache {
  import opened Wrappers
  import opened Text

  /** A stored ISO-8601 stamp: the instant it denotes, or None. For an
      entry's "timestamp", None covers a string that does not parse and
      also one that carries a UTC offset: it parses, but subtracting it from
      the naive `datetime.now()` raises TypeError, which `_is_cache_valid`
      turns into "not valid". For the metadata's "last_update", which is
      only parsed and formatted, None is a string that does not parse, and
      an offset-bearing one keeps its instant. */
  type Timestamp = Option<int>

  /** `timedelta(hours=1)` in microseconds. */
  const CacheDuration: int := 3_600_000_000

  /** The source keys the store by the string "{from}_{to}", which two
      different pairs share once a code contains '_' ("A_B","C" and
      "A","B_C"); the model keys it by the ordered pair itself. */
  type Key = (Code, Code)

  /** `_get_cache_key` in the model: the pair itself. */
  function CacheKey(from: Code, to: Code): (k: Key)
    ensures k.0 == from && k.1 == to
  {
    (from, to)
  }

  /** `_get_cache_key` as written: the string "{from}_{to}". */
  function SourceKey(from: Code, to: Code): string
  {
    from + "_" + to
  }

  /** The string key merges two different pairs once a code contains '_'. */
  lemma SourceKeyCollides()
    ensures SourceKey("A_B", "C") == SourceKey("A", "B_C")
    ensures CacheKey("A_B", "C") != CacheKey("A", "B_C")
  {
    assert SourceKey("A_B", "C") == "A_B_C" == SourceKey("A", "B_C");
  }

  /** In "{from}_{to}" with no '_' in `from`, the first '_' sits just after `from`. */
  lemma FirstUnderscore(from: Code, to: Code)
    requires '_' !in from
    ensures SourceKey(from, to)[|from|] == '_'
    ensures forall i :: 0 <= i < |from| ==> SourceKey(from, to)[i] != '_'
  {
    assert forall i :: 0 <= i < |from| ==> SourceKey(from, to)[i] == from[i];
  }

  /** When no source currency contains '_' (as with ISO 4217 codes), the
      string key and the pair key identify exactly the same entries. */
  lemma SourceKeyAgreesWithoutUnderscore(from: Code, to: Code, from': Code, to': Code)
    requires '_' !in from && '_' !in from'
    ensures SourceKey(from, to) == SourceKey(from', to') <==> CacheKey(from, to) == CacheKey(from', to')
  {
    var s, s' := SourceKey(from, to), SourceKey(from', to');
    if s == s' {
      FirstUnderscore(from, to);
      FirstUnderscore(from', to');
      assert |from| == |from'|;
      assert from == s[..|from|] == s'[..|from'|] == from';
      assert to == s[|from| + 1..] == s'[|from'| + 1..] == to';
    }
  }

  datatype Entry = Entry(rate: real, timestamp: Timestamp, fromCurrency: Code, toCurrency: Code)

  /** The "metadata" object: `last_update` absent, or present and parsing or
      not; `total_cached` absent or present. */
  datatype Metadata = Metadata(lastUpdate: Option<Timestamp>, totalCached: Option<int>)

  const EmptyMetadata := Metadata(None, None)

  /** The whole store: the "rates" object and the "metadata" object. */
  datatype CacheData = CacheData(rates: map<Key, Entry>, metadata: Metadata)

  /** `_is_cache_valid`: a stamp that parses, strictly less than one hour old. */
  predicate IsCacheValid(timestamp: Timestamp, now: int): (valid: bool)
    ensures valid ==> timestamp.Some?
    ensures timestamp.Some? ==> (valid <==> now < timestamp.value + CacheDuration)
  {
    timestamp.Some? && now - timestamp.value < CacheDuration
  }

  /** An entry is valid for just under an hour: still valid 59 minutes after
      it was written, no longer valid at exactly one hour or 61 minutes, and
      never valid when its stamp is None (unparseable, or carrying a UTC
      offset). */
  lemma ValidityWindow(written: int)
    ensures IsCacheValid(Some(written), written)
    ensures IsCacheValid(Some(written), written + 59 * 60_000_000)
    ensures !IsCacheValid(Some(written), written + CacheDuration)
    ensures !IsCacheValid(Some(written), written + 61 * 60_000_000)
    ensures forall now :: !IsCacheValid(None, now)
  {
  }

  /** Keys whose entries are still valid at `now`. */
  ghost function ValidKeys(rates: map<Key, Entry>, now: int): set<Key>
  {
    set k | k in rates && IsCacheValid(rates[k].timestamp, now)
  }

  /** The entries still valid at `now`. */
  function Unexpired(rates: map<Key, Entry>, now: int): (kept: map<Key, Entry>)
    ensures forall k :: k in kept <==> k in rates && IsCacheValid(rates[k].timestamp, now)
    ensures forall k :: k in kept ==> kept[k] == rates[k]
  {
    map k | k in rates && IsCacheValid(rates[k].timestamp, now) :: rates[k]
  }

  /** The entries of a store split into those still valid and those expired. */
  lemma UnexpiredSize(rates: map<Key, Entry>, now: int)
    ensures |rates| == |Unexpired(rates, now)| + |rates.Keys - ValidKeys(rates, now)|
  {
  }

  /** What `_load_cache` finds on disk, after `json.load`. */
  datatype StoredDoc =
    | Missing                    // the file does not exist
    | Unreadable                 // opening or parsing the file raised
    | NotAnObject                // the JSON value is not an object
    | Object(rates: Option<map<Key, Entry>>, metadata: Option<Metadata>)

  /** A store as `_load_cache` returns it, whose "metadata" may be absent. */
  datatype LoadedDoc = LoadedDoc(rates: map<Key, Entry>, metadata: Option<Metadata>)

  /** `_load_cache` as written: any object holding "rates" is kept as it is,
      anything else becomes the empty store; it never fails. */
  function LoadCacheAsWritten(stored: StoredDoc): (d: LoadedDoc)
    ensures stored.Object? && stored.rates.Some? ==> d == LoadedDoc(stored.rates.value, stored.metadata)
    ensures !(stored.Object? && stored.rates.Some?) ==> d == LoadedDoc(map[], Some(EmptyMetadata))
  {
    match stored
    case Object(Some(rates), metadata) => LoadedDoc(rates, metadata)
    case _ => LoadedDoc(map[], Some(EmptyMetadata))
  }

  /** Whether `cache_rate` runs to completion on a loaded store: it assigns
      into the "metadata" object and raises KeyError when there is none. */
  predicate CacheRateSucceeds(d: LoadedDoc)
  {
    d.metadata.Some?
  }

  /** The load check lets through a file holding "rates" but no "metadata",
      `{"rates": {}}`, and the next `cache_rate` on it raises. */
  lemma LoadAcceptsStoreThatBreaksCacheRate()
    ensures !CacheRateSucceeds(LoadCacheAsWritten(Object(Some(map[]), None)))
  {
  }

  /** `_load_cache` corrected: as written, except that a missing "metadata"
      object is read as empty, so every loaded store accepts `cache_rate`. */
  function LoadCache(stored: StoredDoc): (d: CacheData)
    ensures d.rates == LoadCacheAsWritten(stored).rates
    ensures CacheRateSucceeds(LoadCacheAsWritten(stored)) ==> d.metadata == LoadCacheAsWritten(stored).metadata.value
    ensures !CacheRateSucceeds(LoadCacheAsWritten(stored)) ==> d.metadata == EmptyMetadata
    ensures !(stored.Object? && stored.rates.Some?) ==> d == CacheData(map[], EmptyMetadata)
  {
    match stored
    case Object(Some(rates), Some(metadata)) => CacheData(rates, metadata)
    case Object(Some(rates), None) => CacheData(rates, EmptyMetadata)
    case _ => CacheData(map[], EmptyMetadata)
  }

  /** `last_update` as `get_cache_info` shows it. */
  datatype UpdateDisplay = Never | Unknown | At(time: int)

  /** What `get_cache_info` reports; its "count" is "{validCount}/{totalCount}". */
  datatype CacheInfo = CacheInfo(validCount: nat, totalCount: nat, lastUpdate: UpdateDisplay, cacheFile: string)

  class CacheManager {
    const cacheFile: string
    var rates: map<Key, Entry>
    var metadata: Metadata
    /** How many times the store has been written back to `cacheFile`. */
    ghost var saves: nat

    constructor (cacheFile: string, stored: StoredDoc)
      ensures this.cacheFile == cacheFile
      ensures CacheData(rates, metadata) == LoadCache(stored)
      ensures saves == 0
    {
      this.cacheFile := cacheFile;
      var loaded := LoadCache(stored);
      rates := loaded.rates;
      metadata := loaded.metadata;
      saves := 0;
    }

    /** `cache_rate`: overwrites the entry for (from, to) only, stamped `now`,
        then records `now` and the new entry count in the metadata and saves. */
    method CacheRate(from: Code, to: Code, rate: real, now: int)
      modifies this
      ensures rates == old(rates)[CacheKey(from, to) := Entry(rate, Some(now), from, to)]
      ensures |rates| == if CacheKey(from, to) in old(rates) then |old(rates)| else |old(rates)| + 1
      ensures metadata == Metadata(Some(Some(now)), Some(|rates|))
      ensures saves == old(saves) + 1
    {
      var key := CacheKey(from, to);
      rates := rates[key := Entry(rate, Some(now), from, to)];
      metadata := Metadata(Some(Some(now)), Some(|rates|));
      saves := saves + 1;
    }

    /** `get_cached_rate`. A forward entry that is valid is returned; one
        that has expired is deleted (and the store saved) and nothing is
        returned, without looking at the reverse entry. Without a forward
        entry, a valid reverse entry yields its reciprocal and nothing is
        deleted. The reciprocal is unguarded in the source: a zero reverse
        rate would raise ZeroDivisionError, hence the precondition. */
    method GetCachedRate(from: Code, to: Code, now: int) returns (r: Option<real>)
      requires CacheKey(from, to) !in rates && CacheKey(to, from) in rates
               && IsCacheValid(rates[CacheKey(to, from)].timestamp, now)
               ==> rates[CacheKey(to, from)].rate != 0.0
      modifies this
      ensures metadata == old(metadata)
      ensures CacheKey(from, to) in old(rates) && IsCacheValid(old(rates)[CacheKey(from, to)].timestamp, now) ==>
                r == Some(old(rates)[CacheKey(from, to)].rate) && rates == old(rates) && saves == old(saves)
      ensures CacheKey(from, to) in old(rates) && !IsCacheValid(old(rates)[CacheKey(from, to)].timestamp, now) ==>
                r == None && rates == old(rates) - {CacheKey(from, to)} && saves == old(saves) + 1
      ensures CacheKey(from, to) !in old(rates) ==> rates == old(rates) && saves == old(saves)
      ensures CacheKey(from, to) !in old(rates) ==>
                r == (var reverse := CacheKey(to, from);
                      if reverse in rates && IsCacheValid(rates[reverse].timestamp, now)
                      then Some(1.0 / rates[reverse].rate) else None)
    {
      var key := CacheKey(from, to);
      if key !in rates {
        var reverseKey := CacheKey(to, from);
        if reverseKey in rates {
          var entry := rates[reverseKey];
          if IsCacheValid(entry.timestamp, now) {
            return Some(1.0 / entry.rate);
          }
        }
        return None;
      }
      var entry := rates[key];
      if IsCacheValid(entry.timestamp, now) {
        r := Some(entry.rate);
      } else {
        rates := rates - {key};
        saves := saves + 1;
        r := None;
      }
    }

    /** `get_cache_info`: counts the entries still valid at `now` among all
        entries and shows the last update; changes nothing. */
    method GetCacheInfo(now: int) returns (info: CacheInfo)
      ensures info.totalCount == |rates|
      ensures info.validCount == |ValidKeys(rates, now)|
      ensures info.validCount <= info.totalCount
      ensures info.cacheFile == cacheFile
      ensures info.lastUpdate == match metadata.lastUpdate
                                 case None => Never
                                 case Some(None) => Unknown
                                 case Some(Some(t)) => At(t)
    {
      var total := |rates|;
      var valid := 0;
      var remaining := rates.Keys;
      ghost var counted: set<Key> := {};
      while remaining != {}
        invariant remaining <= rates.Keys
        invariant counted == ValidKeys(rates, now) - remaining
        invariant valid == |counted|
        invariant valid <= |rates.Keys| - |remaining|
        decreases remaining
      {
        var key :| key in remaining;
        if IsCacheValid(rates[key].timestamp, now) {
          valid := valid + 1;
          counted := counted + {key};
        }
        remaining := remaining - {key};
      }
      var lastUpdate := match metadata.lastUpdate
                        case None => Never
                        case Some(None) => Unknown
                        case Some(Some(t)) => At(t);
      info := CacheInfo(valid, total, lastUpdate, cacheFile);
    }

    /** `clear_cache`: the store becomes empty, metadata included, and is saved. */
    method ClearCache()
      modifies this
      ensures rates == map[] && metadata == EmptyMetadata
      ensures saves == old(saves) + 1
    {
      rates := map[];
      metadata := EmptyMetadata;
      saves := saves + 1;
    }

    /** The first loop of `clear_expired_cache`: every key whose entry is no
        longer valid at `now`, each once. */
    method CollectExpiredKeys(now: int) returns (expiredKeys: seq<Key>)
      ensures forall k :: k in expiredKeys <==> k in rates && !IsCacheValid(rates[k].timestamp, now)
      ensures |expiredKeys| == |rates.Keys - ValidKeys(rates, now)|
    {
      expiredKeys := [];
      ghost var expired: set<Key> := {};
      var remaining := rates.Keys;
      while remaining != {}
        invariant remaining <= rates.Keys && expired <= rates.Keys && expired !! remaining
        invariant forall k :: k in rates && k !in remaining ==>
                    (k in expired <==> !IsCacheValid(rates[k].timestamp, now))
        invariant forall k :: k in expiredKeys <==> k in expired
        invariant |expiredKeys| == |expired|
        decreases remaining
      {
        var key :| key in remaining;
        if !IsCacheValid(rates[key].timestamp, now) {
          expiredKeys := expiredKeys + [key];
          expired := expired + {key};
        }
        remaining := remaining - {key};
      }
      assert expired == rates.Keys - ValidKeys(rates, now);
    }

    /** `clear_expired_cache`: keeps exactly the entries valid at `now`,
        returns how many it removed, and saves only when that is not zero.
        The metadata, `total_cached` included, is left as it was. */
    method ClearExpiredCache(now: int) returns (removed: nat)
      modifies this
      ensures rates == Unexpired(old(rates), now)
      ensures removed == |old(rates)| - |rates|
      ensures metadata == old(metadata)
      ensures saves == if removed > 0 then old(saves) + 1 else old(saves)
    {
      var expiredKeys := CollectExpiredKeys(now);
      var kept := rates;
      for i := 0 to |expiredKeys|
        invariant forall k :: k in kept <==> k in rates && k !in expiredKeys[..i]
        invariant forall k :: k in kept ==> kept[k] == rates[k]
      {
        assert expiredKeys[..i + 1] == expiredKeys[..i] + [expiredKeys[i]];
        kept := kept - {expiredKeys[i]};
      }
      assert expiredKeys[..|expiredKeys|] == expiredKeys;
      assert kept == Unexpired(rates, now);
      UnexpiredSize(rates, now);
      rates := kept;
      if |expiredKeys| > 0 {
        saves := saves + 1;
      }
      removed := |expiredKeys|;
    }
  }

  /** Write-then-read round trip: a rate cached at `written` is read back
      exactly at any `read` less than an hour later, and the read changes
      nothing. */
  method CacheThenRead(cache: CacheManager, from: Code, to: Code, rate: real, written: int, read: int)
    returns (r: Option<real>)
    requires read - written < CacheDuration
    modifies cache
    ensures r == Some(rate)
    ensures cache.rates == old(cache.rates)[CacheKey(from, to) := Entry(rate, Some(written), from, to)]
    ensures cache.saves == old(cache.saves) + 1
  {
    cache.CacheRate(from, to, rate, written);
    r := cache.GetCachedRate(from, to, read);
  }

  /** Reverse-lookup law: after caching (from, to) at `rate`, reading
      (to, from) within the hour yields 1 / rate, provided no (to, from)
      entry exists, and leaves the (from, to) entry as written. */
  method CacheThenReadReverse(cache: CacheManager, from: Code, to: Code, rate: real, written: int, read: int)
    returns (r: Option<real>)
    requires from != to && rate != 0.0
    requires CacheKey(to, from) !in cache.rates
    requires read - written < CacheDuration
    modifies cache
    ensures r == Some(1.0 / rate)
    ensures cache.rates == old(cache.rates)[CacheKey(from, to) := Entry(rate, Some(written), from, to)]
  {
    cache.CacheRate(from, to, rate, written);
    r := cache.GetCachedRate(to, from, read);
  }

  /** Lazy eviction: a rate read back an hour or more after it was cached is
      not returned and its entry is gone, while every other entry stays. */
  method CacheThenReadExpired(cache: CacheManager, from: Code, to: Code, rate: real, written: int, read: int)
    returns (r: Option<real>)
    requires read - written >= CacheDuration
    modifies cache
    ensures r == None
    ensures cache.rates == old(cache.rates) - {CacheKey(from, to)}
  {
    cache.CacheRate(from, to, rate, written);
    r := cache.GetCachedRate(from, to, read);
  }

  /** A sweep leaves only valid entries, so a second sweep at the same
      instant removes nothing and does not save. */
  method SweepTwice(cache: CacheManager, now: int) returns (first: nat, second: nat)
    modifies cache
    ensures first == |old(cache.rates)| - |cache.rates|
    ensures second == 0
    ensures cache.rates == Unexpired(old(cache.rates), now)
    ensures cache.saves == old(cache.saves) + (if first > 0 then 1 else 0)
  {
    first := cache.ClearExpiredCache(now);
    ghost var swept := cache.rates;
    second := cache.ClearExpiredCache(now);
    assert cache.rates == swept;
  }
}

=== FILE: currency_converter.dfy ===
/** Model of CurrencyConverter (CurrencyConverter/currency_converter.py): the
    decision logic around two rate providers. A conversion is validated,
    short-circuited for equal currencies, answered by the primary provider
    (exchangerate-api.com) or else by the fallback provider (fixer.io),
    whose rates are quoted against EUR. Beside it: the supported-currency
    list memoised for one hour, and a best-effort historical series.

    Every HTTP request is replaced by its outcome, passed in as an
    `Outcome`; the clock is an injected reading in microseconds. */
module Converter {
  import opened Wrappers
  import opened Text

  const Eur: Code := "EUR"

  /** `timedelta(hours=1)` in microseconds. */
  const CurrencyListTtl: int := 3_600_000_000

  /** The built-in list used when the provider cannot be reached. */
  const DefaultCurrencies: seq<Code> := [
    "USD", "EUR", "GBP", "JPY", "AUD", "CAD", "CHF", "CNY", "SEK", "NZD",
    "MXN", "SGD", "HKD", "NOK", "KRW", "TRY", "RUB", "INR", "BRL", "ZAR"
  ]

  /** A decoded provider response: its "rates", "date" and "success" members, each absent or present. */
  datatype Payload = Payload(rates: Option<map<Code, real>>, date: Option<string>, success: Option<bool>)

  /** How one request with `raise_for_status()` and `.json()` ended. `detail` is
      the text of the exception, `str(e)`. */
  datatype Outcome =
    | Timeout(detail: string)
    | ConnectionFailed(detail: string)
    | HttpError(status: nat, detail: string)
    | OtherError(detail: string)          // any other exception, e.g. a body that is not JSON
    | Ok(payload: Payload)
  {
    /** The response parsed and carries a "rates" object. */
    predicate QuotesRates()
    {
      Ok? && payload.rates.Some?
    }
  }

  datatype Provider = ExchangeRateApi | FixerFallback

  /** The failures a conversion reports, each with its own message. */
  datatype ConversionError =
    | NonPositiveAmount
    | RateUnavailable(from: Code, to: Code)
    | TimedOut
    | CannotConnect
    | ApiError(status: nat)
    | UnexpectedError(detail: string)
    | FallbackFailed
    | CurrencyNotSupported(code: Code)
    | PairNotSupported
    | AllServicesUnavailable(detail: string)
  {
    /** The primary provider's failures. */
    predicate FromPrimary()
    {
      RateUnavailable? || TimedOut? || CannotConnect? || ApiError? || UnexpectedError?
    }

    /** The "error" text of the failed result. The value a message carries
        (a currency, a status, an exception's text) can be read back from it. */
    function Message(): (m: string)
      ensures RateUnavailable? ==> |m| >= |to| && m[|m| - |to|..] == to
      ensures ApiError? ==>
                && |m| >= 11 && m[..11] == "API error: "
                && (forall i :: 11 <= i < |m| ==> '0' <= m[i] <= '9')
                && DecimalValue(m[11..]) == status
      ensures UnexpectedError? ==> |m| >= 18 && m[18..] == detail
      ensures CurrencyNotSupported? ==> |m| >= 23 && m[9..|m| - 14] == code
      ensures AllServicesUnavailable? ==> |m| >= |detail| && m[|m| - |detail|..] == detail
    {
      match this
      case NonPositiveAmount => "Amount must be greater than zero"
      case RateUnavailable(from, to) => "Exchange rate not available for " + from + " to " + to
      case TimedOut => "Request timed out. Please try again."
      // one message, written in two pieces so that the verifier can index into it
      case CannotConnect => "Unable to connect to currency service. " + "Please check your internet connection."
      case ApiError(status) =>
        NatToStringValue(status);
        assert ("API error: " + NatToString(status))[11..] == NatToString(status);
        "API error: " + NatToString(status)
      case UnexpectedError(detail) => "Unexpected error: " + detail
      case FallbackFailed => "Fallback API also failed"
      case CurrencyNotSupported(code) => "Currency " + code + " not supported"
      case PairNotSupported => "Currency pair not supported"
      case AllServicesUnavailable(detail) => "All currency services are currently unavailable: " + detail
    }
  }

  /** The successful result. `lastUpdated` is None for the same-currency
      answer, which carries no "last_updated" member. */
  datatype Conversion = Conversion(
    convertedAmount: real,
    exchangeRate: real,
    fromCurrency: Code,
    toCurrency: Code,
    lastUpdated: Option<string>,
    dataSource: string)

  datatype ConversionResult = Converted(conversion: Conversion) | Failed(error: ConversionError)

  /** A conversion's result together with the providers it queried, in order. */
  datatype Resolution = Resolution(result: ConversionResult, consulted: seq<Provider>)

  /** `data.get("date", "Unknown")`. */
  function DateOrUnknown(date: Option<string>): string
  {
    if date.Some? then date.value else "Unknown"
  }

  /** `_convert_with_exchangerate_api`: succeeds exactly when the response
      quotes `to`, at that rate; otherwise each kind of failure is reported
      as its own error. */
  function ConvertWithExchangeRateApi(from: Code, to: Code, amount: real, response: Outcome): (r: ConversionResult)
    ensures r.Converted? <==> response.QuotesRates() && to in response.payload.rates.value
    ensures r.Converted? ==>
              var rate := response.payload.rates.value[to];
              r.conversion == Conversion(amount * rate, rate, from, to,
                                         Some(DateOrUnknown(response.payload.date)), "ExchangeRate-API")
    ensures r.Failed? ==> r.error.FromPrimary()
    ensures response.Ok? && r.Failed? ==> r.error == RateUnavailable(from, to)
    ensures response.Timeout? ==> r == Failed(TimedOut)
    ensures response.ConnectionFailed? ==> r == Failed(CannotConnect)
    ensures response.HttpError? ==> r == Failed(ApiError(response.status))
    ensures response.OtherError? ==> r == Failed(UnexpectedError(response.detail))
  {
    match response
    case Timeout(_) => Failed(TimedOut)
    case ConnectionFailed(_) => Failed(CannotConnect)
    case HttpError(status, _) => Failed(ApiError(status))
    case OtherError(detail) => Failed(UnexpectedError(detail))
    case Ok(payload) =>
      if payload.rates.None? || to !in payload.rates.value then Failed(RateUnavailable(from, to))
      else
        var rate := payload.rates.value[to];
        Converted(Conversion(amount * rate, rate, from, to, Some(DateOrUnknown(payload.date)), "ExchangeRate-API"))
  }

  /** The primary provider's failure messages tell its failure kinds apart:
      timeout, connection, HTTP status (one message per status),
      unexpected error and missing rate never share a message. */
  lemma {:induction false} PrimaryMessagesDistinct(e1: ConversionError, e2: ConversionError)
    requires e1.FromPrimary() && e2.FromPrimary()
    requires !(e1.RateUnavailable? && e2.RateUnavailable?)
    requires e1 != e2
    ensures e1.Message() != e2.Message()
  {
    // Two statuses or two exception texts are read back from the messages
    // (see `Message`); messages of different kinds differ in a leading character.
    if !(e1.ApiError? && e2.ApiError?) && !(e1.UnexpectedError? && e2.UnexpectedError?) {
      PrimaryMessageSignature(e1);
      PrimaryMessageSignature(e2);
    }
  }

  /** The first and third characters of each primary failure message,
      which already differ between any two kinds. */
  lemma PrimaryMessageSignature(e: ConversionError)
    requires e.FromPrimary()
    ensures |e.Message()| >= 3
    ensures e.RateUnavailable? ==> (e.Message()[0], e.Message()[2]) == ('E', 'c')
    ensures e.TimedOut? ==> (e.Message()[0], e.Message()[2]) == ('R', 'q')
    ensures e.CannotConnect? ==> (e.Message()[0], e.Message()[2]) == ('U', 'a')
    ensures e.ApiError? ==> (e.Message()[0], e.Message()[2]) == ('A', 'I')
    ensures e.UnexpectedError? ==> (e.Message()[0], e.Message()[2]) == ('U', 'e')
  {
    var m := e.Message();
    match e
    case RateUnavailable(from, to) =>
      var lead := "Exchange rate not available for ";
      assert m[0] == lead[0] && m[2] == lead[2];
    case TimedOut =>
      var lead := "Request timed out. Please try again.";
      assert m[0] == lead[0] && m[2] == lead[2];
    case CannotConnect =>
      var lead := "Unable to connect to currency service. ";
      assert m[0] == lead[0] && m[2] == lead[2];
    case ApiError(status) =>
      var lead := "API error: ";
      assert m[0] == lead[0] && m[2] == lead[2];
    case UnexpectedError(detail) =>
      var lead := "Unexpected error: ";
      assert m[0] == lead[0] && m[2] == lead[2];
  }

  /** `data.get("rates", {})`. */
  function RatesOrEmpty(payload: Payload): map<Code, real>
  {
    if payload.rates.Some? then payload.rates.value else map[]
  }

  /** What Python reports for a division by zero, `str(ZeroDivisionError)`. */
  const DivisionByZero: string := "float division by zero"

  /** The price of one EUR in `code`, as the fallback provider quotes it; EUR itself is 1. */
  function EurQuote(rates: map<Code, real>, code: Code): Option<real>
  {
    if code == Eur then Some(1.0) else if code in rates then Some(rates[code]) else None
  }

  function FallbackSuccess(from: Code, to: Code, amount: real, rate: real, date: Option<string>): ConversionResult
  {
    Converted(Conversion(amount * rate, rate, from, to, Some(DateOrUnknown(date)), "Fixer.io (Fallback)"))
  }

  /** `_convert_with_fallback_api`: any failed request, and a division by a
      zero quote, report the fallback's catch-all error; a response whose
      "success" is not true reports "Fallback API also failed"; otherwise the
      rate from `from` to `to` is derived through the EUR base, and it is a
      failure, never a default, when either quote is missing. */
  function ConvertWithFallback(from: Code, to: Code, amount: real, response: Outcome): (r: ConversionResult)
    ensures !response.Ok? ==> r == Failed(AllServicesUnavailable(response.detail))
    ensures response.Ok? && response.payload.success != Some(true) ==> r == Failed(FallbackFailed)
    ensures r.Converted? ==> r.conversion.fromCurrency == from && r.conversion.toCurrency == to
    ensures r.Converted? ==> r.conversion.convertedAmount == amount * r.conversion.exchangeRate
    ensures r.Converted? ==> r.conversion.dataSource == "Fixer.io (Fallback)"
                             && r.conversion.lastUpdated == Some(DateOrUnknown(response.payload.date))
    ensures response.Ok? && response.payload.success == Some(true) && !(from == Eur && to == Eur) ==>
              var quotes := RatesOrEmpty(response.payload);
              && (r.Converted? <==> EurQuote(quotes, from).Some? && EurQuote(quotes, to).Some?
                                    && EurQuote(quotes, from).value != 0.0)
              && (r.Converted? ==> r.conversion.exchangeRate == EurQuote(quotes, to).value / EurQuote(quotes, from).value)
  {
    match response
    case Ok(payload) =>
      if payload.success != Some(true) then Failed(FallbackFailed)
      else
        var rates := RatesOrEmpty(payload);
        if from == Eur then
          if to !in rates then Failed(CurrencyNotSupported(to))
          else FallbackSuccess(from, to, amount, rates[to], payload.date)
        else if to == Eur then
          if from !in rates then Failed(CurrencyNotSupported(from))
          else if rates[from] == 0.0 then Failed(AllServicesUnavailable(DivisionByZero))
          else FallbackSuccess(from, to, amount, 1.0 / rates[from], payload.date)
        else if from !in rates || to !in rates then Failed(PairNotSupported)
        else if rates[from] == 0.0 then Failed(AllServicesUnavailable(DivisionByZero))
        else FallbackSuccess(from, to, amount, rates[to] / rates[from], payload.date)
    case _ => Failed(AllServicesUnavailable(response.detail))
  }

  /** Rates the fallback derives from one response are mutually consistent:
      converting there and back multiplies to 1. */
  lemma FallbackRatesReciprocal(a: Code, b: Code, amount1: real, amount2: real, response: Outcome)
    requires a != b
    requires ConvertWithFallback(a, b, amount1, response).Converted?
    requires ConvertWithFallback(b, a, amount2, response).Converted?
    ensures ConvertWithFallback(a, b, amount1, response).conversion.exchangeRate
            * ConvertWithFallback(b, a, amount2, response).conversion.exchangeRate == 1.0
  {
  }

  /** Rates the fallback derives from one response chain: going from a to b
      and then from b to c is going from a to c. */
  lemma FallbackRatesChain(a: Code, b: Code, c: Code, amount: real, response: Outcome)
    requires a != b && b != c && a != c
    requires ConvertWithFallback(a, b, amount, response).Converted?
    requires ConvertWithFallback(b, c, amount, response).Converted?
    ensures ConvertWithFallback(a, c, amount, response).Converted?
    ensures ConvertWithFallback(a, b, amount, response).conversion.exchangeRate
            * ConvertWithFallback(b, c, amount, response).conversion.exchangeRate
            == ConvertWithFallback(a, c, amount, response).conversion.exchangeRate
  {
  }

  /** `convert`: a non-positive amount is refused and equal currencies are
      answered at rate 1, both without querying a provider; otherwise the
      primary provider is queried, its success is returned as it is, and on
      its failure the fallback is queried and its result, success or
      failure, is returned unchanged. */
  function Convert(from: Code, to: Code, amount: real, primary: Outcome, fallback: Outcome): (res: Resolution)
    ensures amount <= 0.0 ==> res == Resolution(Failed(NonPositiveAmount), [])
    ensures amount > 0.0 && from == to ==>
              res == Resolution(Converted(Conversion(amount, 1.0, from, to, None, "Direct (same currency)")), [])
    ensures amount > 0.0 && from != to && ConvertWithExchangeRateApi(from, to, amount, primary).Converted? ==>
              res == Resolution(ConvertWithExchangeRateApi(from, to, amount, primary), [ExchangeRateApi])
    ensures amount > 0.0 && from != to && ConvertWithExchangeRateApi(from, to, amount, primary).Failed? ==>
              res == Resolution(ConvertWithFallback(from, to, amount, fallback), [ExchangeRateApi, FixerFallback])
  {
    if amount <= 0.0 then
      Resolution(Failed(NonPositiveAmount), [])
    else if from == to then
      Resolution(Converted(Conversion(amount, 1.0, from, to, None, "Direct (same currency)")), [])
    else
      var result := ConvertWithExchangeRateApi(from, to, amount, primary);
      if result.Converted? then Resolution(result, [ExchangeRateApi])
      else Resolution(ConvertWithFallback(from, to, amount, fallback), [ExchangeRateApi, FixerFallback])
  }

  /** Whatever path a conversion takes, a success is for the requested pair
      and a positive amount, converts at the rate it reports, and comes from
      the last provider queried (or from none, at rate 1). */
  lemma ConvertedAmountMatchesRate(from: Code, to: Code, amount: real, primary: Outcome, fallback: Outcome)
    ensures var res := Convert(from, to, amount, primary, fallback);
            res.result.Converted? ==>
              && amount > 0.0
              && res.result.conversion.fromCurrency == from
              && res.result.conversion.toCurrency == to
              && res.result.conversion.convertedAmount == amount * res.result.conversion.exchangeRate
              && (res.consulted == [] <==> from == to)
              && (res.consulted != [] ==>
                    res.result.conversion.dataSource ==
                      (if res.consulted[|res.consulted| - 1] == ExchangeRateApi then "ExchangeRate-API"
                       else "Fixer.io (Fallback)"))
  {
  }

  /** A provider that was not consulted has no influence: replacing its
      outcome leaves the whole resolution as it was. */
  lemma UnconsultedProvidersIgnored(from: Code, to: Code, amount: real,
                                    primary: Outcome, fallback: Outcome, primary': Outcome, fallback': Outcome)
    ensures ExchangeRateApi !in Convert(from, to, amount, primary, fallback).consulted ==>
              Convert(from, to, amount, primary', fallback') == Convert(from, to, amount, primary, fallback)
    ensures FixerFallback !in Convert(from, to, amount, primary, fallback).consulted ==>
              Convert(from, to, amount, primary, fallback') == Convert(from, to, amount, primary, fallback)
  {
  }

  /** The worked example: 100 USD with the primary provider quoting EUR at 0.92. */
  lemma ConvertExample(fallback: Outcome)
    ensures Convert("USD", "EUR", 100.0, Ok(Payload(Some(map["EUR" := 0.92]), None, None)), fallback)
            == Resolution(Converted(Conversion(92.0, 0.92, "USD", "EUR", Some("Unknown"), "ExchangeRate-API")),
                          [ExchangeRateApi])
  {
  }

  /** `list(rates.keys())`: every quoted code, each once, in some order. */
  method KeysOf(rates: map<Code, real>) returns (keys: seq<Code>)
    ensures multiset(keys) == multiset(rates.Keys)
  {
    keys := [];
    var remaining := rates.Keys;
    while remaining != {}
      invariant remaining <= rates.Keys
      invariant multiset(keys) + multiset(remaining) == multiset(rates.Keys)
      decreases remaining
    {
      var code :| code in remaining;
      assert multiset(remaining) == multiset(remaining - {code}) + multiset{code};
      keys := keys + [code];
      remaining := remaining - {code};
    }
  }

  class CurrencyConverter {
    var supportedCurrencies: Option<seq<Code>>
    var lastCurrencyFetch: Option<int>
    /** How many times the currency list has been requested from the provider. */
    ghost var currencyFetches: nat

    /** A fetch time is only ever recorded together with a list. */
    ghost predicate Valid()
      reads this
    {
      lastCurrencyFetch.Some? ==> supportedCurrencies.Some?
    }

    constructor ()
      ensures Valid()
      ensures supportedCurrencies == None && lastCurrencyFetch == None && currencyFetches == 0
    {
      supportedCurrencies := None;
      lastCurrencyFetch := None;
      currencyFetches := 0;
    }

    /** The memo must be refreshed: it is empty, never stamped, or stamped
        more than an hour before `now`. */
    predicate NeedsCurrencyRefresh(now: int): (refresh: bool)
      reads this
      ensures !refresh ==>
                && supportedCurrencies.Some? && lastCurrencyFetch.Some?
                && now <= lastCurrencyFetch.value + CurrencyListTtl
    {
      supportedCurrencies.None? || lastCurrencyFetch.None? || now - lastCurrencyFetch.value > CurrencyListTtl
    }

    /** `get_supported_currencies`. Within the hour the memo is returned
        without a request. Otherwise one request is made (`response` is its
        outcome): a response with "rates" gives the sorted list of USD and
        the quoted codes (USD twice when it is quoted too) and stamps the
        clock as read after the request, `fetchedAt`; any other outcome
        gives the default list and leaves the stamp alone, so the next call
        asks again. */
    method GetSupportedCurrencies(now: int, fetchedAt: int, response: Outcome) returns (currencies: seq<Code>)
      requires now <= fetchedAt
      modifies this
      ensures Valid()
      ensures supportedCurrencies == Some(currencies)
      ensures !old(NeedsCurrencyRefresh(now)) ==>
                currencies == old(supportedCurrencies).value
                && lastCurrencyFetch == old(lastCurrencyFetch) && currencyFetches == old(currencyFetches)
      ensures old(NeedsCurrencyRefresh(now)) ==> currencyFetches == old(currencyFetches) + 1
      ensures old(NeedsCurrencyRefresh(now)) && response.QuotesRates() ==>
                && Sorted(currencies)
                && multiset(currencies) == multiset{"USD"} + multiset(response.payload.rates.value.Keys)
                && lastCurrencyFetch == Some(fetchedAt)
      ensures old(NeedsCurrencyRefresh(now)) && !response.QuotesRates() ==>
                currencies == DefaultCurrencies && lastCurrencyFetch == old(lastCurrencyFetch)
    {
      if NeedsCurrencyRefresh(now) {
        currencyFetches := currencyFetches + 1;
        if response.QuotesRates() {
          var keys := KeysOf(response.payload.rates.value);
          var sorted := Sort(["USD"] + keys);
          supportedCurrencies := Some(sorted);
          lastCurrencyFetch := Some(fetchedAt);
        } else {
          supportedCurrencies := Some(DefaultCurrencies);
        }
      }
      currencies := supportedCurrencies.value;
    }
  }

  /** A failed refresh is retried: after a fetch that yields the default
      list, a later call makes a new request. */
  method FailedRefreshIsRetried(converter: CurrencyConverter, now: int, later: int, failed: Outcome, retried: Outcome)
    returns (first: seq<Code>, second: seq<Code>)
    requires converter.Valid()
    requires converter.NeedsCurrencyRefresh(now) && now <= later
    requires !failed.QuotesRates()
    modifies converter
    ensures first == DefaultCurrencies
    ensures converter.currencyFetches == old(converter.currencyFetches) + 2
  {
    first := converter.GetSupportedCurrencies(now, now, failed);
    second := converter.GetSupportedCurrencies(later, later, retried);
  }

  /** One day's request in `get_historical_rates`: it raised, or it answered
      with a status and a body that parsed as JSON or not. */
  datatype DayResponse = RequestFailed | Response(status: int, body: Option<Payload>)

  /** The request for one date, in the order `range(days)` issues them (today first). */
  datatype DayQuery = DayQuery(date: string, response: DayResponse)

  datatype HistoryResult =
    | History(rates: map<string, real>, fromCurrency: Code, toCurrency: Code)
    | HistoryFailed(error: string)

  /** The rate a day's answer gives for `to`: only a 200 answer whose body
      has "rates" quoting `to` gives one. */
  function DayRate(query: DayQuery, to: Code): (rate: Option<real>)
    ensures rate.Some? <==> && query.response.Response? && query.response.status == 200
                            && query.response.body.Some? && query.response.body.value.rates.Some?
                            && to in query.response.body.value.rates.value
    ensures rate.Some? ==> rate.value == query.response.body.value.rates.value[to]
  {
    match query.response
    case Response(200, Some(Payload(Some(rates), _, _))) => if to in rates then Some(rates[to]) else None
    case _ => None
  }

  /** The `i`th query resolved `date` at `rate`, and no later query among the
      first `n` resolved the same date (a later one would overwrite it). */
  ghost predicate RecordedBy(queries: seq<DayQuery>, n: int, to: Code, i: int, date: string, rate: real)
    requires n <= |queries|
  {
    && 0 <= i < n
    && queries[i].date == date
    && DayRate(queries[i], to) == Some(rate)
    && forall j :: i < j < n && queries[j].date == date ==> DayRate(queries[j], to).None?
  }

  /** `get_historical_rates`: one request per day; days whose request fails
      or does not quote `to` are skipped. The result maps exactly the dates
      some day resolved, each to the rate of the last day that resolved it,
      and it is a success exactly when at least one day resolved. */
  method GetHistoricalRates(from: Code, to: Code, days: int, queries: seq<DayQuery>) returns (r: HistoryResult)
    requires |queries| == if days < 0 then 0 else days
    ensures r.History? <==> exists i :: 0 <= i < |queries| && DayRate(queries[i], to).Some?
    ensures r.HistoryFailed? ==> r.error == "Historical data not available"
    ensures r.History? ==> r.fromCurrency == from && r.toCurrency == to
    ensures r.History? ==> forall i :: 0 <= i < |queries| && DayRate(queries[i], to).Some? ==> queries[i].date in r.rates
    ensures r.History? ==> forall date :: date in r.rates ==>
                             exists i :: RecordedBy(queries, |queries|, to, i, date, r.rates[date])
  {
    var historicalRates: map<string, real> := map[];
    ghost var recordedAt: map<string, int> := map[];
    for i := 0 to |queries|
      invariant recordedAt.Keys == historicalRates.Keys
      invariant forall k :: 0 <= k < i && DayRate(queries[k], to).Some? ==> queries[k].date in historicalRates
      invariant forall date :: date in historicalRates ==>
                  RecordedBy(queries, i, to, recordedAt[date], date, historicalRates[date])
    {
      var query := queries[i];
      var rate := DayRate(query, to);
      if rate.Some? {
        historicalRates := historicalRates[query.date := rate.value];
        recordedAt := recordedAt[query.date := i];
      }
    }
    if historicalRates != map[] {
      ghost var date :| date in historicalRates;
      assert RecordedBy(queries, |queries|, to, recordedAt[date], date, historicalRates[date]);
      r := History(historicalRates, from, to);
    } else {
      r := HistoryFailed("Historical data not available");
    }
  }
}

=== FILE: text.dfy ===
/** Strings as both components use them: currency codes, and two Python
    built-ins stated over `string` — the ordering `sorted()` uses for
    strings (code point by code point, a proper prefix first) with a sort
    that produces it, and `str()` of a non-negative integer. */
module Text {

  /** A currency code, such as "USD". */
  type Code = string

  /** Python's `a <= b` on strings. */
  predicate StrLe(a: string, b: string)
    decreases |a|
  {
    a == [] || (b != [] && (a[0] < b[0] || (a[0] == b[0] && StrLe(a[1..], b[1..]))))
  }

  /** Any two strings are ordered one way or the other. */
  lemma {:induction false} StrLeTotal(a: string, b: string)
    ensures StrLe(a, b) || StrLe(b, a)
    decreases |a|
  {
    if a != [] && b != [] && a[0] == b[0] {
      StrLeTotal(a[1..], b[1..]);
    }
  }

  /** Each element is at most its successor. */
  predicate Sorted(s: seq<string>)
  {
    |s| < 2 || (StrLe(s[0], s[1]) && Sorted(s[1..]))
  }

  /** Inserts `x` into the sorted sequence `s` before the first element it does not exceed. */
  function Insert(x: string, s: seq<string>): (r: seq<string>)
    requires Sorted(s)
    ensures Sorted(r)
    ensures multiset(r) == multiset(s) + multiset{x}
    ensures |r| == |s| + 1
    ensures r[0] == x || (s != [] && r[0] == s[0])
  {
    if s == [] then [x]
    else if StrLe(x, s[0]) then [x] + s
    else
      StrLeTotal(x, s[0]);
      assert s == [s[0]] + s[1..];
      [s[0]] + Insert(x, s[1..])
  }

  /** What `sorted(s)` returns: the elements of `s` in ascending order. */
  function Sort(s: seq<string>): (r: seq<string>)
    ensures Sorted(r)
    ensures multiset(r) == multiset(s)
  {
    if s == [] then []
    else
      assert s == [s[0]] + s[1..];
      Insert(s[0], Sort(s[1..]))
  }

  function Digit(d: nat): (c: char)
    requires d < 10
    ensures '0' <= c <= '9'
  {
    ('0' as int + d) as char
  }

  /** What `str(n)` returns for a non-negative integer: its decimal digits, most significant first. */
  function NatToString(n: nat): (s: string)
    ensures |s| >= 1
    ensures n >= 10 ==> |s| >= 2
    ensures forall i :: 0 <= i < |s| ==> '0' <= s[i] <= '9'
  {
    if n < 10 then [Digit(n)] else NatToString(n / 10) + [Digit(n % 10)]
  }

  /** The number a string of decimal digits denotes, most significant digit first. */
  function DecimalValue(s: string): nat
    requires forall i :: 0 <= i < |s| ==> '0' <= s[i] <= '9'
  {
    if s == [] then 0 else 10 * DecimalValue(s[..|s| - 1]) + (s[|s| - 1] as int - '0' as int)
  }

  /** The digits `str(n)` produces spell `n` back. */
  lemma {:induction false} NatToStringValue(n: nat)
    ensures DecimalValue(NatToString(n)) == n
  {
    var s := NatToString(n);
    if n < 10 {
      assert s[..0] == [];
    } else {
      assert s[..|s| - 1] == NatToString(n / 10);
      NatToStringValue(n / 10);
    }
  }

  /** Distinct numbers have distinct decimal representations. */
  lemma {:induction false} NatToStringInjective(a: nat, b: nat)
    requires NatToString(a) == NatToString(b)
    ensures a == b
  {
    NatToStringValue(a);
    NatToStringValue(b);
  }
}

=== FILE: wrappers.dfy ===
/** The absent-or-present value used throughout the model (Python's None or a value). */
module Wrappers {

  datatype Option<+T> = None | Some(value: T)
}
